=== FILE: README.md ===
# Copilot summary panels: colour ramp, change filter, auto-save and wrap-up guard

This project is a Dafny model of the logic inside two Lightning web components. Both components show AI-generated call wrap-up suggestions, a summary, a resolution, a reason and a follow-up text, each with a confidence score. The voice-call panel (`genesysVoiceCallSummary`) and the experience panel (`genesysExperienceSummary`) are near-identical. The model covers four pieces of their logic:

- **ConfidenceColor**: the colour that frames a field for a given confidence (`getConfidenceColor`, in both panels). Confidence is an exact `real`, and `Math.round` is `Floor(x + 0.5)`. The result is a `Color` datatype, `Rgb(r, g, b) | Hex(code)`, instead of a formatted string.
- **ChangeEvents**: the voice-call panel's change-data-capture filter (`handleCdcMessage`). It decides whether a change notification makes the cached record stale. Every level of the notification is an `Option`, so a malformed message can be represented.
- **SummaryAutoSave**: the voice-call panel's debounced auto-save of the edited summary (`handleSummaryInput`, `handleSummaryBlur`, `saveSummary` and the `summary` getter). Timers are named by their `setTimeout` ids. A save is split at its `await` into `SaveStart` and `OnSaveSettled`, and other events may happen in between.
- **WrapUp**: the `isProcessing` guard around the remote wrap-up update (`handleWrapUpClick`, in both panels) and `getWrapUpId`.

Three shared modules support these. **Wrappers** holds the optional values that stand for `null` and `undefined`, and JavaScript string truthiness. **Panels** holds the two panel variants and their loaded field lists. **Notifications** holds the toast events. The colour mapping and the change filter are stateless pure functions. Every auto-save and wrap-up handler is a pure function from a state and an event to a new state plus a list of effects: `Persist`, `Call` or `Notify`. The remote calls (`updateRecord`, `updateWrapUpCode`) show up as these effects. Their answers come back as separate settle events whose outcome can be anything.

## Behaviour worth knowing

- **Blur does not cancel the timer.** `handleSummaryBlur` does not clear the debounce timer, and `saveSummary` clears it only after `updateRecord` settles, whether it succeeds (`genesysVoiceCallSummary.js` lines 376-379) or fails (lines 390-393). If the timer fires while that save is in flight, the edit is still active and the same update is sent a second time (`BlurThenTimerSavesTwice`).
- **Saves can overlap.** Nothing in `saveSummary` stops a second save from starting while one is in flight.
- **Edits typed during a save are lost.** Text typed while a save is in flight is discarded when that save settles, and its timer is cleared (`EditDuringSaveIsDiscarded`).
- **Colour at exactly 0.80.** 0.80 clamps to `rgb(0, 200, 0)`, while values just below it reach `(0, 255, 0)` (`JumpAtEighty`). The table's 80 to 100 segment is never used (`TopSegmentUnreachable`).
- **What counts as an unset confidence.** The `!confidence` test treats 0 and NaN as unset, just like a missing value.

## Model

| member | source | states |
|---|---|---|
| ConfidenceColor.VoiceCallColor | force-app/main/default/lwc/genesysVoiceCallSummary/genesysVoiceCallSummary.js:203-248 | A falsy confidence (unset, NaN, 0) gives dark green `(0,200,0)`. Any other confidence gives the ramp at confidence×100. The result is always an rgb colour with every channel an integer in [0,255]. |
| ConfidenceColor.ExperienceColor | force-app/main/default/lwc/genesysExperienceSummary/genesysExperienceSummary.js:99-139 | A falsy confidence gives the grey `#e5e5e5`. Any other confidence gives an rgb colour with every channel an integer in [0,255]. |
| ConfidenceColor.Ramp | force-app/main/default/lwc/genesysVoiceCallSummary/genesysVoiceCallSummary.js:212-247 | At or below 40% the colour is red `(255,0,0)`. At or above 80% it is `(0,200,0)`. Strictly between, the chosen bracket contains the percentage and ends at or below 80, and each channel lies between that bracket's two stop channels. `RampIsRoundedLinear` pins down the exact value. |
| ConfidenceColor.RampIsRoundedLinear | force-app/main/default/lwc/genesysVoiceCallSummary/genesysVoiceCallSummary.js:238-243 | Strictly between 40% and 80%, each channel is the linear interpolation between the bracketing stops at the percentage's fraction of the bracket, rounded to the nearest integer. |
| ConfidenceColor.RampAtFortyFive | force-app/main/default/lwc/genesysExperienceSummary/genesysExperienceSummary.js:129-134 | At 45% the colour is `(255,25,25)`, halfway between red and `(255,50,50)`. |
| ConfidenceColor.FirstBracket | force-app/main/default/lwc/genesysVoiceCallSummary/genesysVoiceCallSummary.js:226-236 | The search loop returns the first stop pair that contains the percentage, with both ends inclusive. Every earlier pair misses it. If the search runs out, it returns the last position. |
| ConfidenceColor.Bracket | force-app/main/default/lwc/genesysExperienceSummary/genesysExperienceSummary.js:117-130 | The pair used for interpolation always has a lower threshold strictly below the upper one, so the division by the range never divides by zero. Both stops come from the table. |
| ConfidenceColor.PanelsDifferOnlyWhenFalsy | force-app/main/default/lwc/genesysExperienceSummary/genesysExperienceSummary.js:101-115 | The two panels give the same colour exactly when the confidence is truthy. |
| ConfidenceColor.FullConfidenceIsDarkGreen | force-app/main/default/lwc/genesysVoiceCallSummary/genesysVoiceCallSummary.js:207-224 | A confidence of exactly 1 gives `(0,200,0)` in both panels. |
| ConfidenceColor.InteriorStopsExact | force-app/main/default/lwc/genesysVoiceCallSummary/genesysVoiceCallSummary.js:214-243 | At the interior stops 50, 60 and 70 the ramp returns that stop's colour exactly. |
| ConfidenceColor.TopSegmentUnreachable | force-app/main/default/lwc/genesysVoiceCallSummary/genesysVoiceCallSummary.js:214-236 | For a percentage strictly between 40 and 80, the search never reaches the 80 to 100 pair. |
| ConfidenceColor.JumpAtEighty | force-app/main/default/lwc/genesysVoiceCallSummary/genesysVoiceCallSummary.js:218-224 | Confidence 0.79995 gives `(0,255,0)` but 0.8 gives `(0,200,0)`, so the ramp is discontinuous at 80. |
| ConfidenceColor.RampMonotoneOnSegment | force-app/main/default/lwc/genesysVoiceCallSummary/genesysVoiceCallSummary.js:238-243 | Within one segment, each channel rises with the confidence when its upper stop is larger and falls when it is smaller. |
| ConfidenceColor.LerpBetween | force-app/main/default/lwc/genesysVoiceCallSummary/genesysVoiceCallSummary.js:241-243 | A rounded channel interpolated by a fraction in [0,1] lies between the two stop channels. |
| ChangeEvents.HeaderOf | force-app/main/default/lwc/genesysVoiceCallSummary/genesysVoiceCallSummary.js:117-118 | The payload's `ChangeEventHeader` is used when present. Otherwise the header is `data.changeEventHeader`. A missing message or missing data yields no header. |
| ChangeEvents.ChangedFieldsOf | force-app/main/default/lwc/genesysVoiceCallSummary/genesysVoiceCallSummary.js:126 | A header's changed-field list, even an empty one, takes precedence. Without one, the payload's list is used, and without either the list is empty. |
| ChangeEvents.AnyRelevantIffIntersects | force-app/main/default/lwc/genesysVoiceCallSummary/genesysVoiceCallSummary.js:127 | The left-to-right `some` scan finds a relevant field exactly when the changed fields intersect the relevant set. |
| ChangeEvents.ShouldRefresh | force-app/main/default/lwc/genesysVoiceCallSummary/genesysVoiceCallSummary.js:115-136 | With no header there is no refresh. Otherwise a refresh happens exactly when the record id is in `recordIds` (default `[]`) and the chosen changed-field list is empty or intersects the relevant set. |
| ChangeEvents.OtherRecordNeverRefreshes | force-app/main/default/lwc/genesysVoiceCallSummary/genesysVoiceCallSummary.js:119-125 | A notification without a header, or whose ids omit the panel's record, never refreshes, whatever its fields. |
| ChangeEvents.EmptyHeaderListTakesPrecedence | force-app/main/default/lwc/genesysVoiceCallSummary/genesysVoiceCallSummary.js:126-127 | An empty header list triggers a refresh even when the payload's list names only unrelated fields. |
| ChangeEvents.PayloadListUsedWithoutHeaderList | force-app/main/default/lwc/genesysVoiceCallSummary/genesysVoiceCallSummary.js:126-127 | When the header has no list, the payload's list decides, and an unrelated field gives no refresh. |
| ChangeEvents.SummaryChangeRefreshes | force-app/main/default/lwc/genesysVoiceCallSummary/genesysVoiceCallSummary.js:46-65 | On the panel's record, a change to the summary text refreshes and a change to an unrelated field does not. |
| SummaryAutoSave.Initial | force-app/main/default/lwc/genesysVoiceCallSummary/genesysVoiceCallSummary.js:38-41 | A freshly connected panel is valid, is not editing, has no armed timer and has no save in flight. |
| SummaryAutoSave.Displayed | force-app/main/default/lwc/genesysVoiceCallSummary/genesysVoiceCallSummary.js:184-189 | While editing, the getter shows the local edit. Otherwise it shows the stored summary, or `''` when that is absent. |
| SummaryAutoSave.OnInput | force-app/main/default/lwc/genesysVoiceCallSummary/genesysVoiceCallSummary.js:330-343 | Input starts editing with the new value and cancels the timer the handle names. It arms one new timer. From a valid state, exactly one timer is armed afterwards. Nothing in flight changes. |
| SummaryAutoSave.OnBlur | force-app/main/default/lwc/genesysVoiceCallSummary/genesysVoiceCallSummary.js:345-350 | Without an active edit, or without a record id, blur does nothing. Otherwise it sends the current edit and appends it to the in-flight saves, and nothing else changes: the edit stays active and the armed timer stays in place. |
| SummaryAutoSave.OnTimer | force-app/main/default/lwc/genesysVoiceCallSummary/genesysVoiceCallSummary.js:340-342 | A firing timer is spent and the handle keeps naming it. The edit state is unchanged, so the getter still shows the edit. With an active edit and a record id, the current edit is sent and appended to the in-flight saves. Otherwise nothing is sent, and nothing changes except that the timer is spent. |
| SummaryAutoSave.SaveStart | force-app/main/default/lwc/genesysVoiceCallSummary/genesysVoiceCallSummary.js:352-369 | Without an active edit or a record id, a save does nothing. Otherwise it sends exactly `{Id: recordId, GC_Copilot_summary_text__c: edit}`, captured before the `await`, and changes nothing else. |
| SummaryAutoSave.OnSaveSettled | force-app/main/default/lwc/genesysVoiceCallSummary/genesysVoiceCallSummary.js:371-394 | On success or failure, editing ends, the buffer becomes `''`, the handle is cleared and no timer stays armed. The update leaves the in-flight list. The toast is "Summary update sent" or "Failed to save summary". |
| SummaryAutoSave.AtMostOneArmedTimer | force-app/main/default/lwc/genesysVoiceCallSummary/genesysVoiceCallSummary.js:334-342 | In a valid editor at most one debounce timer is armed. |
| SummaryAutoSave.RunPreservesValid | force-app/main/default/lwc/genesysVoiceCallSummary/genesysVoiceCallSummary.js:330-394 | After any feasible sequence of input, blur, timer and settle events, the editor is still valid and at most one timer is armed. |
| SummaryAutoSave.DebounceSavesLatestOnly | force-app/main/default/lwc/genesysVoiceCallSummary/genesysVoiceCallSummary.js:330-342 | Typing "A" then "AB" leaves one armed timer. When it fires, it sends exactly one update, carrying "AB". |
| SummaryAutoSave.BlurThenTimerSavesTwice | force-app/main/default/lwc/genesysVoiceCallSummary/genesysVoiceCallSummary.js:345-379 | A blur followed by the still-armed timer sends the same update twice, and two saves are in flight. |
| SummaryAutoSave.EditDuringSaveIsDiscarded | force-app/main/default/lwc/genesysVoiceCallSummary/genesysVoiceCallSummary.js:369-379 | Text typed during a save is dropped when that save settles. Editing ends and the new timer is cleared. |
| SummaryAutoSave.FailureLeavesCleanSession | force-app/main/default/lwc/genesysVoiceCallSummary/genesysVoiceCallSummary.js:383-394 | A failed save shows the failure toast and leaves a clean session. The next keystroke starts an edit just as on a fresh panel. |
| SummaryAutoSave.NoRecordIdNeverPersists | force-app/main/default/lwc/genesysVoiceCallSummary/genesysVoiceCallSummary.js:352-355 | Without a record id, neither blur nor the timer sends anything. |
| WrapUp.IdleIsValid | force-app/main/default/lwc/genesysExperienceSummary/genesysExperienceSummary.js:34 | A panel starts with `isProcessing` false and no unanswered call, which satisfies the guard invariant. |
| WrapUp.GetWrapUpId | force-app/main/default/lwc/genesysExperienceSummary/genesysExperienceSummary.js:60-69 | Before the record loads there is no id. After that, the id is the value of the wrap-up id field for that index. |
| WrapUp.ErrorMessage | force-app/main/default/lwc/genesysExperienceSummary/genesysExperienceSummary.js:211-214 | The error toast shows the error body's message when it is a non-empty string, and "Error updating wrap-up code" otherwise. It is never empty. |
| WrapUp.OnClick | force-app/main/default/lwc/genesysExperienceSummary/genesysExperienceSummary.js:178-207 | A click while processing changes nothing. A missing or empty id shows "No wrap-up code ID available" and sends nothing. Otherwise the flag is raised and one call is sent with the interaction, wrap-up, agent participant and communication ids. |
| WrapUp.OnCallSettled | force-app/main/default/lwc/genesysExperienceSummary/genesysExperienceSummary.js:208-218 | After the call answers, success or failure, the flag is down. From a valid guard the panel is idle again. The toast reports the outcome. |
| WrapUp.RunKeepsOneCallInFlight | force-app/main/default/lwc/genesysVoiceCallSummary/genesysVoiceCallSummary.js:287-328 | Over any feasible sequence of clicks and answers, the guard stays valid, at most one call is unanswered, and the calls sent equal the answers received plus those outstanding. |
| WrapUp.ClickWhileProcessingIgnored | force-app/main/default/lwc/genesysExperienceSummary/genesysExperienceSummary.js:181-184 | A click while processing sends no call and leaves the guard unchanged. |
| WrapUp.ClickBeforeLoadReportsMissingId | force-app/main/default/lwc/genesysExperienceSummary/genesysExperienceSummary.js:189-196 | A click before the record loads shows the missing-id error, sends nothing and stays idle. |
| WrapUp.FailureWithoutMessage | force-app/main/default/lwc/genesysVoiceCallSummary/genesysVoiceCallSummary.js:320-327 | A rejection with no error body shows the default message and releases the guard. |
| Panels.ClickFieldsAreLoaded | force-app/main/default/lwc/genesysExperienceSummary/genesysExperienceSummary.js:202-207 | The interaction, agent participant and communication fields the wrap-up update sends are among the fields the record is loaded with. |
| Panels.WrapUpIdFieldsAreLoaded | force-app/main/default/lwc/genesysExperienceSummary/genesysExperienceSummary.js:8-30 | The wrap-up id fields for indices 1, 2 and 3 are among the loaded fields. |

## Left out

- Platform calls: `@wire(getRecord)`, `refreshApex`, `updateRecord` and the Apex `updateWrapUpCode` are host calls. They appear only as `Persist` and `Call` effects, and their answers as arbitrary settle outcomes. A true `ShouldRefresh` stands for the `refreshApex` call and its follow-up scrollbar timer.
- Change-feed plumbing: the empApi `subscribe`, `unsubscribe` and `onError` calls, and the `connectedCallback`, `disconnectedCallback` and `renderedCallback` hooks.
- Scrollbar sizing: `updateScrollbarVisibility` measures the DOM.
- Timer durations: the 100 ms, 200 ms and 2000 ms delays are wall-clock times. Debounce timers are modelled only as armed or spent, and their firing is an event.
- Logging and styling: `console` logging, `generateStyle`, `getWrapUpBoxClass` and the formatting of `rgb(r, g, b)` strings are presentation. A toast is a `Notify` effect rather than a dispatched event.
- Plain field getters: `wrapUp1` to `wrapUp3`, `resolution`, `reason`, `followup` and the `*Style` getters only read fields.
- Record load errors: `wiredVoiceCall` and `wiredExperience` show a "Failed to load record data" toast when the wire adapter reports an error. This is not modelled, because record loading itself is a host call.
- Floating point: IEEE-754 rounding of `confidence * 100` and of the division is not modelled. Confidence is an exact real, so infinities are not represented either.
- Non-array notification fields: a `recordIds` or `changedFields` value that is not an array is not modelled. Lists are `seq<string>` or absent. A string `recordIds` would make `includes` do a substring match. A non-empty string `changedFields` would throw at `.some`, and the `catch` would swallow it, so there would be no refresh. A number in either place would throw into the `catch` as well.
- Undefined record id in the filter: the panel's own `recordId` is a string in the filter. An undefined record id is modelled only in the auto-save, where `saveSummary` tests it.
- Voice-call `getWrapUpId`: it is identical to the experience panel's. It is modelled once, with the panel as a parameter.

=== FILE: change_events.dfy ===
/**
 * The voice-call panel's change-data-capture filter (`handleCdcMessage`):
 * given a change notification, the panel's record id and its set of
 * relevant field names, decide whether the cached record must be
 * refreshed. Every level of the notification may be missing, so that
 * malformed input is representable; a missing header means "not relevant".
 */
module ChangeEvents {
  import opened Wrappers

  datatype Header = Header(recordIds: Option<seq<string>>, changedFields: Option<seq<string>>)

  datatype Payload = Payload(changeEventHeader: Option<Header>, changedFields: Option<seq<string>>)

  datatype EventData = EventData(payload: Option<Payload>, changeEventHeader: Option<Header>)

  datatype Message = Message(data: Option<EventData>)

  /** The fields whose change makes the panel's cached record stale (`relevantFields`). */
  const RelevantFields: set<string> := {
    "GC_Copilot_session_summary_id__c",
    "GC_Copilot_summary_text__c",
    "GC_Copilot_summary_confidence__c",
    "GC_Copilot_resolution_text__c",
    "GC_Copilot_resolution_confidence__c",
    "GC_Copilot_reason_text__c",
    "GC_Copilot_reason_confidence__c",
    "GC_Copilot_followup_text__c",
    "GC_Copilot_followup_confidence__c",
    "GC_Copilot_wrap_up_1_name__c",
    "GC_Copilot_wrap_up_1_confidence__c",
    "GC_Copilot_wrap_up_1_id__c",
    "GC_Copilot_wrap_up_2_name__c",
    "GC_Copilot_wrap_up_2_confidence__c",
    "GC_Copilot_wrap_up_2_id__c",
    "GC_Copilot_wrap_up_3_name__c",
    "GC_Copilot_wrap_up_3_confidence__c",
    "GC_Copilot_wrap_up_3_id__c"
  }

  /** `message?.data?.payload` */
  function PayloadOf(m: Option<Message>): Option<Payload> {
    if m.Some? && m.value.data.Some? then m.value.data.value.payload else None
  }

  /** `payload?.ChangeEventHeader || message?.data?.changeEventHeader` */
  function HeaderOf(m: Option<Message>): (h: Option<Header>)
    ensures PayloadOf(m).Some? && PayloadOf(m).value.changeEventHeader.Some?
            ==> h == PayloadOf(m).value.changeEventHeader
    ensures !(PayloadOf(m).Some? && PayloadOf(m).value.changeEventHeader.Some?) && m.Some? && m.value.data.Some?
            ==> h == m.value.data.value.changeEventHeader
    ensures (m.None? || m.value.data.None?) ==> h.None?
  {
    var p := PayloadOf(m);
    if p.Some? && p.value.changeEventHeader.Some? then p.value.changeEventHeader
    else if m.Some? && m.value.data.Some? then m.value.data.value.changeEventHeader
    else None
  }

  /**
   * `header.changedFields || payload?.changedFields || []`: an array is
   * truthy even when empty, so a header list, even `[]`, is never
   * overridden by the payload's.
   */
  function ChangedFieldsOf(h: Header, p: Option<Payload>): (fields: seq<string>)
    ensures h.changedFields.Some? ==> fields == h.changedFields.value
    ensures h.changedFields.None? && p.Some? && p.value.changedFields.Some? ==> fields == p.value.changedFields.value
    ensures h.changedFields.None? && (p.None? || p.value.changedFields.None?) ==> fields == []
  {
    if h.changedFields.Some? then h.changedFields.value
    else if p.Some? && p.value.changedFields.Some? then p.value.changedFields.value
    else []
  }

  /** `fields.some(f => relevant.has(f))`, scanning left to right. */
  function AnyRelevant(fields: seq<string>, relevant: set<string>): bool {
    if fields == [] then false
    else fields[0] in relevant || AnyRelevant(fields[1..], relevant)
  }

  /**
   * The reference meaning of staleness: the record is among those changed,
   * and either the changed fields are unknown (an empty list) or they
   * intersect the relevant set.
   */
  ghost predicate Stale(recordIds: seq<string>, changed: seq<string>, recordId: string, relevant: set<string>) {
    recordId in recordIds
    && (|changed| == 0 || (set f | f in changed) * relevant != {})
  }

  lemma {:induction false} AnyRelevantIffIntersects(fields: seq<string>, relevant: set<string>)
    ensures AnyRelevant(fields, relevant) <==> (set f | f in fields) * relevant != {}
  {
    if fields != [] {
      AnyRelevantIffIntersects(fields[1..], relevant);
      var whole := set f | f in fields;
      var rest := set f | f in fields[1..];
      assert whole == {fields[0]} + rest;
      if fields[0] in relevant {
        assert fields[0] in whole * relevant;
      } else if rest * relevant != {} {
        var x :| x in rest * relevant;
        assert x in whole * relevant;
      } else {
        assert whole * relevant == {};
      }
    } else {
      assert (set f | f in fields) == {};
    }
  }

  /** The verdict of `handleCdcMessage`: true when the record is refreshed. */
  function ShouldRefresh(m: Option<Message>, recordId: string, relevant: set<string>): (refresh: bool)
    ensures HeaderOf(m).None? ==> !refresh
    ensures HeaderOf(m).Some? ==>
              (refresh <==> Stale(HeaderOf(m).value.recordIds.GetOr([]),
                                  ChangedFieldsOf(HeaderOf(m).value, PayloadOf(m)),
                                  recordId, relevant))
  {
    var header := HeaderOf(m);
    if header.None? then false
    else
      var recordIds := header.value.recordIds.GetOr([]);
      if recordId !in recordIds then false
      else
        var changed := ChangedFieldsOf(header.value, PayloadOf(m));
        AnyRelevantIffIntersects(changed, relevant);
        |changed| == 0 || AnyRelevant(changed, relevant)
  }

  /** A notification that does not name the panel's record never refreshes it, whatever its fields. */
  lemma OtherRecordNeverRefreshes(m: Option<Message>, recordId: string, relevant: set<string>)
    requires HeaderOf(m).Some? ==> recordId !in HeaderOf(m).value.recordIds.GetOr([])
    ensures !ShouldRefresh(m, recordId, relevant)
  {
  }

  /**
   * The header's changed-field list wins over the payload's even when it
   * is empty: an empty header list refreshes a matching record although
   * the payload names only unrelated fields.
   */
  lemma EmptyHeaderListTakesPrecedence(recordId: string, unrelated: string)
    requires unrelated !in RelevantFields
    ensures var header := Header(Some([recordId]), Some([]));
            var payload := Payload(Some(header), Some([unrelated]));
            ShouldRefresh(Some(Message(Some(EventData(Some(payload), None)))), recordId, RelevantFields)
  {
  }

  /** Without a header list the payload's list decides. */
  lemma PayloadListUsedWithoutHeaderList(recordId: string, unrelated: string)
    requires unrelated !in RelevantFields
    ensures var header := Header(Some([recordId]), None);
            var payload := Payload(Some(header), Some([unrelated]));
            !ShouldRefresh(Some(Message(Some(EventData(Some(payload), None)))), recordId, RelevantFields)
  {
    var changed := [unrelated];
    assert (set f | f in changed) == {unrelated};
  }

  /**
   * A summary change on the panel's record refreshes it; a change of an
   * unrelated field only does not.
   */
  lemma SummaryChangeRefreshes(recordId: string)
    ensures var header := Header(Some([recordId]), Some(["GC_Copilot_summary_text__c"]));
            ShouldRefresh(Some(Message(Some(EventData(None, Some(header))))), recordId, RelevantFields)
    ensures var header := Header(Some([recordId]), Some(["unrelated_field"]));
            !ShouldRefresh(Some(Message(Some(EventData(None, Some(header))))), recordId, RelevantFields)
  {
    var unrelated := ["unrelated_field"];
    assert (set f | f in unrelated) == {"unrelated_field"};
    assert "unrelated_field" !in RelevantFields;
    var summary := ["GC_Copilot_summary_text__c"];
    assert "GC_Copilot_summary_text__c" in (set f | f in summary) * RelevantFields;
  }
}

=== FILE: confidence_color.dfy ===
/**
 * The confidence-to-colour mapping both panels use to frame a generated
 * field (`getConfidenceColor`). A confidence in [0, 1] is scaled to a
 * percentage; at or below 40 it is red, at or above 80 dark green, and in
 * between each RGB channel is interpolated linearly between the two
 * bracketing stops of a fixed table and rounded to the nearest integer.
 * The panels differ only on a falsy confidence: the voice-call panel shows
 * dark green, the experience panel a neutral grey.
 */
module ConfidenceColor {

  /** A confidence as read from a record field: unset (`null`/`undefined`), `NaN`, or a number. */
  datatype Confidence = Unset | NotANumber | Score(value: real)

  datatype Color = Rgb(r: int, g: int, b: int) | Hex(code: string)

  /** A ramp stop: a percentage threshold and the colour at that threshold. */
  datatype Stop = Stop(threshold: real, r: int, g: int, b: int)

  const Red: Color := Rgb(255, 0, 0)
  const DarkGreen: Color := Rgb(0, 200, 0)
  const NeutralGrey: Color := Hex("#e5e5e5")

  /** The colour ramp, in increasing threshold order. */
  const Stops: seq<Stop> := [
    Stop(40.0, 255, 0, 0),
    Stop(50.0, 255, 50, 50),
    Stop(60.0, 255, 195, 0),
    Stop(70.0, 255, 214, 51),
    Stop(80.0, 0, 255, 0),
    Stop(100.0, 0, 200, 0)
  ]

  /** JavaScript's `!confidence`: absent, `NaN` and zero are falsy. */
  predicate Falsy(c: Confidence) {
    match c
    case Unset => true
    case NotANumber => true
    case Score(v) => v == 0.0
  }

  /** `Math.round` on a non-negative value: halves round up. */
  function Round(x: real): int {
    (x + 0.5).Floor
  }

  predicate Between(x: int, a: int, b: int) {
    (a <= x <= b) || (b <= x <= a)
  }

  predicate IsByte(x: int) {
    0 <= x <= 255
  }

  /** An `rgb(r, g, b)` colour whose channels are all integers in [0, 255]. */
  predicate IsRgbByte(c: Color) {
    c.Rgb? && IsByte(c.r) && IsByte(c.g) && IsByte(c.b)
  }

  /** Each channel of `c` lies between the corresponding channels of `lo` and `hi`. */
  predicate WithinStops(c: Color, lo: Stop, hi: Stop) {
    c.Rgb? && Between(c.r, lo.r, hi.r) && Between(c.g, lo.g, hi.g) && Between(c.b, lo.b, hi.b)
  }

  /** Stops `k` and `k + 1` bracket the percentage `pct` (both ends inclusive). */
  predicate Brackets(k: nat, pct: real)
    requires k + 1 < |Stops|
  {
    Stops[k].threshold <= pct <= Stops[k + 1].threshold
  }

  /**
   * The search loop over the stop table, from position `i` on: the first
   * `k` whose pair brackets `pct`, or `|Stops| - 1` when no pair does (the
   * loop runs out without a `break`).
   */
  function FirstBracket(pct: real, i: nat): (k: nat)
    requires i < |Stops|
    ensures i <= k < |Stops|
    ensures k + 1 < |Stops| ==> Brackets(k, pct)
    ensures forall j :: i <= j < k && j + 1 < |Stops| ==> !Brackets(j, pct)
    decreases |Stops| - i
  {
    if i + 1 == |Stops| then i
    else if Brackets(i, pct) then i
    else FirstBracket(pct, i + 1)
  }

  /**
   * The pair of stops the interpolation uses: the bracket found by the
   * search, or the first and last stops when none was found.
   */
  function Bracket(pct: real): (stops: (Stop, Stop))
    ensures stops.0.threshold < stops.1.threshold
    ensures stops.0 in Stops && stops.1 in Stops
  {
    var k := FirstBracket(pct, 0);
    if k + 1 < |Stops| then (Stops[k], Stops[k + 1]) else (Stops[0], Stops[|Stops| - 1])
  }

  /** `x` is what rounding `y` to the nearest integer, halves up, gives. */
  predicate NearestTo(x: int, y: real) {
    y - 0.5 < x as real <= y + 0.5
  }

  /** The exact, unrounded value of a channel going from `a` at `lo` to `b` at `hi`, at `pct`. */
  function Linear(a: int, b: int, lo: real, hi: real, pct: real): real
    requires lo < hi
  {
    a as real + (b - a) as real * ((pct - lo) / (hi - lo))
  }

  /** One channel interpolated a fraction `t` of the way from `a` to `b`, rounded. */
  function Lerp(a: int, b: int, t: real): int {
    Round(a as real + (b - a) as real * t)
  }

  /** The colour a fraction of the way from `lo` to `hi`, where `pct` sits in that bracket. */
  function Interpolate(lo: Stop, hi: Stop, pct: real): Color
    requires lo.threshold < hi.threshold
  {
    var t := (pct - lo.threshold) / (hi.threshold - lo.threshold);
    Rgb(Lerp(lo.r, hi.r, t), Lerp(lo.g, hi.g, t), Lerp(lo.b, hi.b, t))
  }

  /** The colour for a truthy confidence given as a percentage. */
  function Ramp(pct: real): (c: Color)
    ensures IsRgbByte(c)
    ensures pct <= 40.0 ==> c == Red
    ensures pct >= 80.0 ==> c == DarkGreen
    ensures 40.0 < pct < 80.0 ==>
              Bracket(pct).0.threshold <= pct <= Bracket(pct).1.threshold <= 80.0
              && WithinStops(c, Bracket(pct).0, Bracket(pct).1)
  {
    if pct <= 40.0 then Red
    else if pct >= 80.0 then DarkGreen
    else
      var (lo, hi) := Bracket(pct);
      InterpolateWithin(lo, hi, pct);
      Interpolate(lo, hi, pct)
  }

  /** The voice-call panel's colour: dark green for a falsy confidence or exactly 1. */
  function VoiceCallColor(c: Confidence): (color: Color)
    ensures Falsy(c) ==> color == DarkGreen
    ensures !Falsy(c) ==> color == Ramp(c.value * 100.0)
    ensures IsRgbByte(color)
  {
    if Falsy(c) || c == Score(1.0) then DarkGreen
    else Ramp(c.value * 100.0)
  }

  /** The experience panel's colour: neutral grey for a falsy confidence. */
  function ExperienceColor(c: Confidence): (color: Color)
    ensures Falsy(c) ==> color == NeutralGrey
    ensures !Falsy(c) ==> IsRgbByte(color)
  {
    if Falsy(c) then NeutralGrey
    else Ramp(c.value * 100.0)
  }

  // ---------------------------------------------------------------------
  // Arithmetic facts behind the interpolation
  // ---------------------------------------------------------------------

  lemma RoundBetween(x: real, lo: int, hi: int)
    requires lo as real <= x <= hi as real
    ensures lo <= Round(x) <= hi
  {
  }

  lemma RoundOfInt(n: int)
    ensures Round(n as real) == n
  {
  }

  lemma FractionInUnit(x: real, lo: real, hi: real)
    requires lo <= x <= hi && lo < hi
    ensures 0.0 <= (x - lo) / (hi - lo) <= 1.0
  {
    var d := hi - lo;
    var t := (x - lo) / d;
    assert t * d == x - lo;
  }

  lemma FractionMonotone(x: real, y: real, lo: real, hi: real)
    requires x <= y && lo < hi
    ensures (x - lo) / (hi - lo) <= (y - lo) / (hi - lo)
  {
    var d := hi - lo;
    assert ((y - lo) / d - (x - lo) / d) * d == y - x;
  }

  lemma LerpBetween(a: int, b: int, t: real)
    requires 0.0 <= t <= 1.0
    ensures Between(Lerp(a, b, t), a, b)
  {
    var d := (b - a) as real;
    var x := a as real + d * t;
    if a <= b {
      assert 0.0 <= d * t <= d by {
        assert d * (1.0 - t) >= 0.0;
      }
      RoundBetween(x, a, b);
    } else {
      assert d <= d * t <= 0.0 by {
        assert (-d) * (1.0 - t) >= 0.0;
      }
      RoundBetween(x, b, a);
    }
  }

  lemma MulNonNegative(x: real, y: real)
    requires 0.0 <= x && 0.0 <= y
    ensures 0.0 <= x * y
  {
  }

  lemma RoundMonotone(x: real, y: real)
    requires x <= y
    ensures Round(x) <= Round(y)
  {
  }

  /** A channel moves in the direction of its bracket as the fraction grows. */
  lemma LerpMonotone(a: int, b: int, t1: real, t2: real)
    requires t1 <= t2
    ensures a <= b ==> Lerp(a, b, t1) <= Lerp(a, b, t2)
    ensures b <= a ==> Lerp(a, b, t1) >= Lerp(a, b, t2)
  {
    var d := (b - a) as real;
    assert d * t2 - d * t1 == d * (t2 - t1);
    if a <= b {
      MulNonNegative(d, t2 - t1);
      RoundMonotone(a as real + d * t1, a as real + d * t2);
    }
    if b <= a {
      MulNonNegative(-d, t2 - t1);
      RoundMonotone(a as real + d * t2, a as real + d * t1);
    }
  }

  lemma InterpolateWithin(lo: Stop, hi: Stop, pct: real)
    requires lo.threshold < hi.threshold
    requires lo.threshold <= pct <= hi.threshold
    ensures WithinStops(Interpolate(lo, hi, pct), lo, hi)
  {
    var t := (pct - lo.threshold) / (hi.threshold - lo.threshold);
    FractionInUnit(pct, lo.threshold, hi.threshold);
    LerpBetween(lo.r, hi.r, t);
    LerpBetween(lo.g, hi.g, t);
    LerpBetween(lo.b, hi.b, t);
  }

  // ---------------------------------------------------------------------
  // Properties of the mapping
  // ---------------------------------------------------------------------

  /** On a truthy confidence the two panels agree; they differ on every falsy one. */
  lemma PanelsDifferOnlyWhenFalsy(c: Confidence)
    ensures !Falsy(c) <==> VoiceCallColor(c) == ExperienceColor(c)
  {
  }

  /** Exactly 1 is dark green in both panels, through the voice-call shortcut or the clamp. */
  lemma FullConfidenceIsDarkGreen()
    ensures VoiceCallColor(Score(1.0)) == DarkGreen
    ensures ExperienceColor(Score(1.0)) == DarkGreen
  {
  }

  /** At the interior stops 50, 60 and 70 the ramp yields that stop's colour exactly. */
  lemma InteriorStopsExact(k: nat)
    requires 1 <= k <= 3
    ensures Ramp(Stops[k].threshold) == Rgb(Stops[k].r, Stops[k].g, Stops[k].b)
  {
    var pct := Stops[k].threshold;
    assert Brackets(k - 1, pct);
    assert FirstBracket(pct, 0) == k - 1;
    var (lo, hi) := Bracket(pct);
    assert (pct - lo.threshold) / (hi.threshold - lo.threshold) == 1.0;
    RoundOfInt(hi.r);
    RoundOfInt(hi.g);
    RoundOfInt(hi.b);
  }

  /**
   * Between the clamps the search always stops at a pair ending at or
   * below 80: the 80 to 100 segment of the table is never interpolated.
   */
  lemma TopSegmentUnreachable(pct: real)
    requires 40.0 < pct < 80.0
    ensures FirstBracket(pct, 0) + 2 < |Stops|
    ensures Bracket(pct).1.threshold <= 80.0
  {
  }

  /**
   * The ramp is discontinuous at 80: just below it the colour has reached
   * the stop (0, 255, 0), while 80 itself clamps to (0, 200, 0).
   */
  lemma JumpAtEighty()
    ensures VoiceCallColor(Score(0.79995)) == Rgb(0, 255, 0)
    ensures VoiceCallColor(Score(0.8)) == DarkGreen
  {
    var pct := 0.79995 * 100.0;
    assert pct == 79.995;
    assert !Brackets(0, pct) && !Brackets(1, pct) && !Brackets(2, pct) && Brackets(3, pct);
    assert FirstBracket(pct, 0) == 3;
    var t := (pct - 70.0) / (80.0 - 70.0);
    assert t == 0.9995;
    assert Lerp(255, 0, t) == 0;
    assert Lerp(214, 255, t) == 255;
    assert Lerp(51, 0, t) == 0;
  }

  /**
   * Between the clamps each channel is the linear interpolation between
   * the bracketing stops, rounded to the nearest integer.
   */
  lemma RampIsRoundedLinear(pct: real)
    requires 40.0 < pct < 80.0
    ensures var (lo, hi) := Bracket(pct);
            && NearestTo(Ramp(pct).r, Linear(lo.r, hi.r, lo.threshold, hi.threshold, pct))
            && NearestTo(Ramp(pct).g, Linear(lo.g, hi.g, lo.threshold, hi.threshold, pct))
            && NearestTo(Ramp(pct).b, Linear(lo.b, hi.b, lo.threshold, hi.threshold, pct))
  {
  }

  /** Interpolation at 45: halfway from red to (255, 50, 50). */
  lemma RampAtFortyFive()
    ensures Ramp(45.0) == Rgb(255, 25, 25)
  {
    assert Brackets(0, 45.0);
    assert FirstBracket(45.0, 0) == 0;
    assert Lerp(0, 50, 0.5) == 25;
  }

  /**
   * Within one segment of the ramp each channel is monotone: it rises with
   * the confidence where the upper stop's channel is the larger, and falls
   * where it is the smaller.
   */
  lemma RampMonotoneOnSegment(p1: real, p2: real)
    requires 40.0 < p1 <= p2 < 80.0
    requires FirstBracket(p1, 0) == FirstBracket(p2, 0)
    ensures var (lo, hi) := Bracket(p1);
            var (c1, c2) := (Ramp(p1), Ramp(p2));
            && (lo.r <= hi.r ==> c1.r <= c2.r) && (hi.r <= lo.r ==> c1.r >= c2.r)
            && (lo.g <= hi.g ==> c1.g <= c2.g) && (hi.g <= lo.g ==> c1.g >= c2.g)
            && (lo.b <= hi.b ==> c1.b <= c2.b) && (hi.b <= lo.b ==> c1.b >= c2.b)
  {
    var (lo, hi) := Bracket(p1);
    assert Bracket(p2) == (lo, hi);
    var d := hi.threshold - lo.threshold;
    var t1 := (p1 - lo.threshold) / d;
    var t2 := (p2 - lo.threshold) / d;
    FractionMonotone(p1, p2, lo.threshold, hi.threshold);
    LerpMonotone(lo.r, hi.r, t1, t2);
    LerpMonotone(lo.g, hi.g, t1, t2);
    LerpMonotone(lo.b, hi.b, t1, t2);
  }
}

=== FILE: notifications.dfy ===
/** The toast events both panels dispatch for user feedback (`showToast`). */
module Notifications {

  datatype Severity = Success | Error

  datatype Toast = Toast(title: string, message: string, severity: Severity)

  function SuccessToast(message: string): Toast {
    Toast("Success", message, Success)
  }

  function ErrorToast(message: string): Toast {
    Toast("Error", message, Error)
  }
}

=== FILE: panels.dfy ===
/**
 * The two record-detail panels: the voice-call panel reads a `VoiceCall`
 * record, the experience panel a `genesysps__Experience__c` record. Apart
 * from the object name and the interaction-id field they load the same
 * fields.
 */
module Panels {

  datatype Panel = VoiceCallPanel | ExperiencePanel

  function ObjectApiName(p: Panel): string {
    match p
    case VoiceCallPanel => "VoiceCall"
    case ExperiencePanel => "genesysps__Experience__c"
  }

  /** The field holding the interaction id, unqualified. */
  function InteractionIdField(p: Panel): string {
    match p
    case VoiceCallPanel => "GC_Interaction_Id__c"
    case ExperiencePanel => "genesysps__Interaction_Id__c"
  }

  /** `Object.Field`, the form in which record fields are requested and read. */
  function Qualified(p: Panel, field: string): string {
    ObjectApiName(p) + "." + field
  }

  /** The field of wrap-up suggestion `index` holding its wrap-up code id. */
  function WrapUpIdField(index: string): string {
    "GC_Copilot_wrap_up_" + index + "_id__c"
  }

  /** The generated-text fields, in the order the panels request them. */
  const CopilotFields: seq<string> := [
    "GC_Copilot_wrap_up_1_name__c",
    "GC_Copilot_wrap_up_1_confidence__c",
    "GC_Copilot_wrap_up_1_id__c",
    "GC_Copilot_wrap_up_2_name__c",
    "GC_Copilot_wrap_up_2_confidence__c",
    "GC_Copilot_wrap_up_2_id__c",
    "GC_Copilot_wrap_up_3_name__c",
    "GC_Copilot_wrap_up_3_confidence__c",
    "GC_Copilot_wrap_up_3_id__c",
    "GC_Copilot_summary_text__c",
    "GC_Copilot_summary_confidence__c",
    "GC_Copilot_resolution_text__c",
    "GC_Copilot_resolution_confidence__c",
    "GC_Copilot_reason_text__c",
    "GC_Copilot_reason_confidence__c",
    "GC_Copilot_followup_text__c",
    "GC_Copilot_followup_confidence__c"
  ]

  /** The fields a wrap-up update needs besides the wrap-up code id. */
  function CallFields(p: Panel): seq<string> {
    [InteractionIdField(p),
     "GC_Copilot_participant_id__c",
     "GC_agent_participant_id__c",
     "GC_Copilot_communication_id__c"]
  }

  /** The qualified fields the panel's record is loaded with (`FIELDS`). */
  function LoadedFields(p: Panel): (fs: seq<string>)
    ensures |fs| == |CopilotFields| + |CallFields(p)|
    ensures forall i :: 0 <= i < |fs| ==> fs[i] == Qualified(p, (CopilotFields + CallFields(p))[i])
  {
    var names := CopilotFields + CallFields(p);
    seq(|names|, i requires 0 <= i < |names| => Qualified(p, names[i]))
  }

  /**
   * The three wrap-up id fields the click handler reads are among the
   * loaded fields, so a loaded record can supply them.
   */
  lemma WrapUpIdFieldsAreLoaded(p: Panel, index: string)
    requires index in ["1", "2", "3"]
    ensures Qualified(p, WrapUpIdField(index)) in LoadedFields(p)
  {
    var fs := LoadedFields(p);
    if index == "1" {
      assert fs[2] == Qualified(p, WrapUpIdField(index));
    } else if index == "2" {
      assert fs[5] == Qualified(p, WrapUpIdField(index));
    } else {
      assert fs[8] == Qualified(p, WrapUpIdField(index));
    }
  }

  /** The interaction, agent participant and communication fields a wrap-up update sends are loaded. */
  lemma ClickFieldsAreLoaded(p: Panel)
    ensures Qualified(p, InteractionIdField(p)) in LoadedFields(p)
    ensures Qualified(p, "GC_agent_participant_id__c") in LoadedFields(p)
    ensures Qualified(p, "GC_Copilot_communication_id__c") in LoadedFields(p)
  {
    var fs := LoadedFields(p);
    assert fs[17] == Qualified(p, InteractionIdField(p));
    assert fs[19] == Qualified(p, "GC_agent_participant_id__c");
    assert fs[20] == Qualified(p, "GC_Copilot_communication_id__c");
  }
}

=== FILE: summary_autosave.dfy ===
/**
 * The voice-call panel's debounced auto-save of the hand-edited summary
 * (`handleSummaryInput`, `handleSummaryBlur`, `saveSummary` and the
 * `summary` getter).
 *
 * Timers are named by the ids `setTimeout` hands out: `handle` is the
 * panel's `summaryAutoSaveTimer`, `armed` the timers that will still fire.
 * A save is split at its `await`: `SaveStart` runs up to the persist
 * request, `OnSaveSettled` runs when that request completes, in any order
 * relative to other events. Nothing stops a second save from starting
 * while one is in flight, and the model does not pretend otherwise.
 */
module SummaryAutoSave {
  import opened Wrappers
  import opened Notifications

  const SummaryField := "GC_Copilot_summary_text__c"

  /** The `fields` object of the record update a save sends. */
  type RecordFields = map<string, string>

  datatype Editor = Editor(
    recordId: Option<string>,
    editing: bool,
    edited: string,
    handle: Option<nat>,
    armed: set<nat>,
    nextTimer: nat,
    inFlight: seq<RecordFields>)

  datatype SaveOutcome = Saved | SaveFailed

  datatype Effect = Persist(fields: RecordFields) | Notify(toast: Toast)

  datatype Step = Step(next: Editor, effects: seq<Effect>)

  const SavedToast := SuccessToast("Summary update sent")
  const FailedToast := ErrorToast("Failed to save summary")

  /** The update a save sends: the record id and the summary as edited. */
  function SummaryUpdate(id: string, text: string): RecordFields {
    map["Id" := id, SummaryField := text]
  }

  /** `fields` updates exactly the summary of the record `id` names, and `id` is truthy. */
  predicate UpdatesRecord(fields: RecordFields, id: Option<string>) {
    Truthy(id) && fields.Keys == {"Id", SummaryField} && "Id" in fields && fields["Id"] == id.value
  }

  /** A freshly connected panel: no edit, no timer, nothing in flight. */
  function Initial(recordId: Option<string>): (s: Editor)
    ensures Valid(s) && !s.editing && s.armed == {} && s.inFlight == []
  {
    Editor(recordId, false, "", None, {}, 1, [])
  }

  /**
   * The state every reachable editor is in: only the timer the handle
   * names can still be armed, timer ids are fresh, an edit buffer exists
   * only while editing, and every in-flight update targets the panel's
   * record.
   */
  ghost predicate Valid(s: Editor) {
    && (s.handle.None? ==> s.armed == {})
    && (s.handle.Some? ==> s.armed <= {s.handle.value} && s.handle.value < s.nextTimer)
    && (!s.editing ==> s.edited == "")
    && (forall i :: 0 <= i < |s.inFlight| ==>
          UpdatesRecord(s.inFlight[i], s.recordId))
  }

  lemma AtMostOneArmedTimer(s: Editor)
    requires Valid(s)
    ensures |s.armed| <= 1
  {
    if s.handle.Some? {
      assert s.armed <= {s.handle.value};
      if s.armed != {} {
        assert s.armed == {s.handle.value};
      }
    }
  }

  /** The `summary` getter: the local edit while editing, otherwise the stored text or `''`. */
  function Displayed(s: Editor, stored: Option<string>): (text: string)
    ensures s.editing ==> text == s.edited
    ensures !s.editing && stored.Some? ==> text == stored.value
    ensures !s.editing && stored.None? ==> text == ""
  {
    if s.editing then s.edited else stored.GetOr("")
  }

  /**
   * `handleSummaryInput`: record the new value, cancel the timer the
   * handle names and arm a fresh one.
   */
  function OnInput(s: Editor, value: string): (t: Editor)
    ensures t.editing && t.edited == value
    ensures t.handle.Some? && t.handle.value !in s.armed && t.armed == {t.handle.value}
              + (if s.handle.Some? then s.armed - {s.handle.value} else s.armed)
    ensures t.recordId == s.recordId && t.inFlight == s.inFlight
    ensures Valid(s) ==> Valid(t) && t.armed == {t.handle.value}
  {
    var remaining := if s.handle.Some? then s.armed - {s.handle.value} else s.armed;
    var timer := FreshTimer(s.armed, s.nextTimer);
    s.(editing := true, edited := value, handle := Some(timer), armed := remaining + {timer}, nextTimer := timer + 1)
  }

  /** A timer id not in `used` and at least `from`. */
  function FreshTimer(used: set<nat>, from: nat): (id: nat)
    ensures id !in used && id >= from
    decreases |used|
  {
    if from !in used then from
    else FreshTimer(used - {from}, from + 1)
  }

  /**
   * `saveSummary` up to its `await`: nothing happens unless an edit is
   * active and the panel has a record id; otherwise the update, captured
   * now, is sent and stays in flight. The edit and its timer are left as
   * they are until the update settles.
   */
  function SaveStart(s: Editor): (step: Step)
    ensures !s.editing || !Truthy(s.recordId) ==> step == Step(s, [])
    ensures s.editing && Truthy(s.recordId) ==>
              var update := SummaryUpdate(s.recordId.value, s.edited);
              && step.effects == [Persist(update)]
              && step.next == s.(inFlight := s.inFlight + [update])
              && update["Id"] == s.recordId.value && update[SummaryField] == s.edited
    ensures Valid(s) ==> Valid(step.next)
  {
    if !s.editing || !Truthy(s.recordId) then Step(s, [])
    else
      var update := SummaryUpdate(s.recordId.value, s.edited);
      var t := s.(inFlight := s.inFlight + [update]);
      assert forall i :: 0 <= i < |s.inFlight| ==> t.inFlight[i] == s.inFlight[i];
      Step(t, [Persist(update)])
  }

  /**
   * `handleSummaryBlur`: save at once if an edit is active. The armed
   * timer is not cancelled, and the edit stays active until the save
   * settles.
   */
  function OnBlur(s: Editor): (step: Step)
    ensures !s.editing ==> step == Step(s, [])
    ensures s.editing && !Truthy(s.recordId) ==> step == Step(s, [])
    ensures s.editing && Truthy(s.recordId) ==>
              && step.effects == [Persist(SummaryUpdate(s.recordId.value, s.edited))]
              && step.next == s.(inFlight := s.inFlight + [SummaryUpdate(s.recordId.value, s.edited)])
              && step.next.editing && step.next.handle == s.handle && step.next.armed == s.armed
  {
    if s.editing then SaveStart(s) else Step(s, [])
  }

  /**
   * The debounce timer `timer` fires and calls `saveSummary`: the timer is
   * spent, and the current edit is sent if one is active. The handle keeps
   * naming the spent timer.
   */
  function OnTimer(s: Editor, timer: nat): (step: Step)
    requires timer in s.armed
    ensures timer !in step.next.armed && step.next.armed == s.armed - {timer}
    ensures step.next.handle == s.handle
    ensures step.next.editing == s.editing && step.next.edited == s.edited
    ensures s.editing && Truthy(s.recordId) ==>
              && step.effects == [Persist(SummaryUpdate(s.recordId.value, s.edited))]
              && step.next == s.(armed := s.armed - {timer},
                                 inFlight := s.inFlight + [SummaryUpdate(s.recordId.value, s.edited)])
    ensures !(s.editing && Truthy(s.recordId)) ==> step == Step(s.(armed := s.armed - {timer}), [])
  {
    SaveStart(s.(armed := s.armed - {timer}))
  }

  /**
   * The in-flight update at position `k` settles. Either way the edit is
   * discarded, the timer the handle names is cleared, and a toast reports
   * the outcome; a failure is not retried.
   */
  function OnSaveSettled(s: Editor, k: nat, outcome: SaveOutcome): (step: Step)
    requires k < |s.inFlight|
    ensures !step.next.editing && step.next.edited == ""
    ensures step.next.handle.None?
    ensures Valid(s) ==> step.next.armed == {}
    ensures step.next.inFlight == s.inFlight[..k] + s.inFlight[k + 1..]
    ensures step.next.recordId == s.recordId
    ensures outcome == Saved ==> step.effects == [Notify(Toast("Success", "Summary update sent", Success))]
    ensures outcome == SaveFailed ==> step.effects == [Notify(Toast("Error", "Failed to save summary", Error))]
    ensures Valid(s) ==> Valid(step.next)
  {
    var armed := if s.handle.Some? then s.armed - {s.handle.value} else s.armed;
    var t := s.(editing := false, edited := "", handle := None, armed := armed,
                inFlight := s.inFlight[..k] + s.inFlight[k + 1..]);
    assert Valid(s) ==> Valid(t) by {
      if Valid(s) {
        forall i | 0 <= i < |t.inFlight|
          ensures UpdatesRecord(t.inFlight[i], t.recordId)
        {
          if i < k { assert t.inFlight[i] == s.inFlight[i]; }
          else { assert t.inFlight[i] == s.inFlight[i + 1]; }
        }
      }
    }
    Step(t, [Notify(if outcome == Saved then SavedToast else FailedToast)])
  }

  // ---------------------------------------------------------------------
  // Event traces
  // ---------------------------------------------------------------------

  datatype Event =
    | Typed(value: string)
    | Blurred
    | TimerFired(timer: nat)
    | SaveSettled(index: nat, outcome: SaveOutcome)

  /** Whether the host can deliver `e` now: only armed timers fire, only sent updates settle. */
  predicate Enabled(s: Editor, e: Event) {
    match e
    case TimerFired(t) => t in s.armed
    case SaveSettled(k, _) => k < |s.inFlight|
    case _ => true
  }

  function Apply(s: Editor, e: Event): Step
    requires Enabled(s, e)
  {
    match e
    case Typed(v) => Step(OnInput(s, v), [])
    case Blurred => OnBlur(s)
    case TimerFired(t) => OnTimer(s, t)
    case SaveSettled(k, o) => OnSaveSettled(s, k, o)
  }

  lemma ApplyPreservesValid(s: Editor, e: Event)
    requires Valid(s) && Enabled(s, e)
    ensures Valid(Apply(s, e).next)
  {
  }

  /** Whether every event of `events` is enabled when it arrives. */
  predicate Feasible(s: Editor, events: seq<Event>)
    decreases |events|
  {
    events == [] || (Enabled(s, events[0]) && Feasible(Apply(s, events[0]).next, events[1..]))
  }

  /**
   * The state after `events`, and every effect they produced in order.
   * Each event produces at most one effect: one update sent, or one toast.
   */
  function Run(s: Editor, events: seq<Event>): (step: Step)
    requires Feasible(s, events)
    ensures step.next.recordId == s.recordId
    ensures |step.effects| <= |events|
    decreases |events|
  {
    if events == [] then Step(s, [])
    else
      var first := Apply(s, events[0]);
      var rest := Run(first.next, events[1..]);
      Step(rest.next, first.effects + rest.effects)
  }

  /** Every reachable editor is valid; in particular at most one debounce timer is ever armed. */
  lemma {:induction false} RunPreservesValid(s: Editor, events: seq<Event>)
    requires Valid(s) && Feasible(s, events)
    ensures Valid(Run(s, events).next)
    ensures |Run(s, events).next.armed| <= 1
    decreases |events|
  {
    if events == [] {
      AtMostOneArmedTimer(s);
    } else {
      ApplyPreservesValid(s, events[0]);
      RunPreservesValid(Apply(s, events[0]).next, events[1..]);
    }
  }

  /**
   * Typing "A" and then "AB" before the debounce expires leaves one armed
   * timer; when it fires, exactly one update is sent, carrying "AB".
   */
  lemma DebounceSavesLatestOnly(id: string)
    requires id != ""
    ensures var s := OnInput(OnInput(Initial(Some(id)), "A"), "AB");
            && s.armed == {s.handle.value}
            && var step := OnTimer(s, s.handle.value);
               && step.effects == [Persist(SummaryUpdate(id, "AB"))]
               && step.next.armed == {}
  {
  }

  /**
   * Blurring while the debounce timer is armed saves at once but leaves
   * the timer armed; when it fires during the first save, the edit is
   * still active and the same update is sent a second time.
   */
  lemma BlurThenTimerSavesTwice(id: string)
    requires id != ""
    ensures var s0 := OnInput(Initial(Some(id)), "A");
            var s1 := OnBlur(s0).next;
            var s2 := OnTimer(s1, s0.handle.value);
            && s0.handle.value in s1.armed
            && OnBlur(s0).effects == [Persist(SummaryUpdate(id, "A"))]
            && s2.effects == [Persist(SummaryUpdate(id, "A"))]
            && |s2.next.inFlight| == 2
  {
  }

  /**
   * Text typed while a save is in flight is thrown away when that save
   * settles: the edit ends and the new debounce timer is cleared, so the
   * later text is never sent.
   */
  lemma EditDuringSaveIsDiscarded(id: string)
    requires id != ""
    ensures var s0 := OnInput(Initial(Some(id)), "A");
            var s1 := OnInput(OnBlur(s0).next, "AB");
            var s2 := OnSaveSettled(s1, 0, Saved).next;
            && s1.inFlight == [SummaryUpdate(id, "A")]
            && !s2.editing && s2.armed == {} && s2.inFlight == []
  {
  }

  /**
   * After a failed save the session is clean, and the next keystroke
   * starts an edit just as it would on a freshly connected panel.
   */
  lemma FailureLeavesCleanSession(id: string, text: string, next: string)
    requires id != ""
    ensures var s0 := OnBlur(OnInput(Initial(Some(id)), text)).next;
            var failed := OnSaveSettled(s0, 0, SaveFailed);
            var restart := OnInput(Initial(Some(id)), next);
            var again := OnInput(failed.next, next);
            && failed.effects == [Notify(FailedToast)]
            && !failed.next.editing && failed.next.inFlight == [] && failed.next.armed == {}
            && again.editing == restart.editing && again.edited == restart.edited
            && again.inFlight == restart.inFlight && |again.armed| == |restart.armed| == 1
  {
  }

  /** Without a record id nothing is ever sent, whatever the edit. */
  lemma NoRecordIdNeverPersists(s: Editor)
    requires !Truthy(s.recordId)
    ensures OnBlur(s).effects == []
    ensures forall t :: t in s.armed ==> OnTimer(s, t).effects == []
  {
  }
}

=== FILE: wrap_up.dfy ===
/**
 * The wrap-up click handler both panels share (`handleWrapUpClick`) and
 * the wrap-up id lookup behind it (`getWrapUpId`). `processing` is the
 * panel's `isProcessing` flag; `outstanding` counts the remote wrap-up
 * updates sent and not yet answered, which the flag is meant to keep at
 * most one. The click is split at its `await`: `OnClick` runs up to the
 * remote call, `OnCallSettled` runs the `catch` and `finally` blocks when
 * the call answers.
 */
module WrapUp {
  import opened Wrappers
  import opened Notifications
  import opened Panels

  /** A loaded record: qualified field name to value; a missing key is a `null` field. */
  type RecordData = map<string, string>

  datatype Guard = Guard(processing: bool, outstanding: nat)

  /** The arguments of the remote `updateWrapUpCode` call. */
  datatype WrapUpCall = WrapUpCall(
    interactionId: Option<string>,
    wrapUpCodeId: string,
    participantId: Option<string>,
    communicationId: Option<string>)

  datatype ErrorBody = ErrorBody(message: Option<string>)

  /** A rejected remote call; `body` and its `message` may be absent. */
  datatype RemoteError = RemoteError(body: Option<ErrorBody>)

  datatype CallOutcome = CallSucceeded | CallFailed(error: RemoteError)

  datatype Effect = Call(request: WrapUpCall) | Notify(toast: Toast)

  datatype Step = Step(next: Guard, effects: seq<Effect>)

  const MissingIdMessage := "No wrap-up code ID available"
  const SentMessage := "Wrap-up code update sent"
  const DefaultErrorMessage := "Error updating wrap-up code"

  /** An idle panel: no call in flight. */
  const Idle := Guard(false, 0)

  /** The flag is raised exactly while one call is unanswered. */
  predicate Valid(g: Guard) {
    g.outstanding == (if g.processing then 1 else 0)
  }

  /** A panel starts idle, and idle is valid: no flag, no unanswered call. */
  lemma IdleIsValid()
    ensures Valid(Idle) && !Idle.processing
  {
  }

  /** `getFieldValue`: the field's value, or nothing when the record has no value for it. */
  function FieldValue(data: RecordData, field: string): (v: Option<string>)
    ensures v.Some? <==> field in data
    ensures v.Some? ==> v.value == data[field]
  {
    if field in data then Some(data[field]) else None
  }

  /** `getWrapUpId`: nothing before the record is loaded, else the id field of suggestion `index`. */
  function GetWrapUpId(p: Panel, data: Option<RecordData>, index: string): (id: Option<string>)
    ensures data.None? ==> id.None?
    ensures data.Some? ==> id == FieldValue(data.value, Qualified(p, WrapUpIdField(index)))
  {
    if data.None? then None
    else FieldValue(data.value, Qualified(p, WrapUpIdField(index)))
  }

  /** The message shown for a rejected call: `error.body?.message || 'Error updating wrap-up code'`. */
  function ErrorMessage(e: RemoteError): (message: string)
    ensures message != ""
    ensures e.body.Some? && Truthy(e.body.value.message) ==> message == e.body.value.message.value
    ensures !(e.body.Some? && Truthy(e.body.value.message)) ==> message == DefaultErrorMessage
  {
    if e.body.Some? && Truthy(e.body.value.message) then e.body.value.message.value
    else DefaultErrorMessage
  }

  /**
   * A click on wrap-up suggestion `index`, up to the remote call. A click
   * while a call is in flight is ignored; a missing id is reported and
   * nothing is sent; otherwise the flag is raised and the update sent.
   */
  function OnClick(p: Panel, g: Guard, data: Option<RecordData>, index: string): (step: Step)
    ensures g.processing ==> step == Step(g, [])
    ensures !g.processing && !Truthy(GetWrapUpId(p, data, index)) ==>
              step == Step(g, [Notify(ErrorToast(MissingIdMessage))])
    ensures !g.processing && Truthy(GetWrapUpId(p, data, index)) ==>
              && data.Some?
              && step.next == Guard(true, g.outstanding + 1)
              && step.effects == [Call(WrapUpCall(
                   FieldValue(data.value, Qualified(p, InteractionIdField(p))),
                   GetWrapUpId(p, data, index).value,
                   FieldValue(data.value, Qualified(p, "GC_agent_participant_id__c")),
                   FieldValue(data.value, Qualified(p, "GC_Copilot_communication_id__c"))))]
    ensures Valid(g) ==> Valid(step.next)
  {
    if g.processing then Step(g, [])
    else
      var id := GetWrapUpId(p, data, index);
      if !Truthy(id) then Step(g, [Notify(ErrorToast(MissingIdMessage))])
      else
        var d := data.value;
        var request := WrapUpCall(
          FieldValue(d, Qualified(p, InteractionIdField(p))),
          id.value,
          FieldValue(d, Qualified(p, "GC_agent_participant_id__c")),
          FieldValue(d, Qualified(p, "GC_Copilot_communication_id__c")));
        Step(Guard(true, g.outstanding + 1), [Call(request)])
  }

  /**
   * The remote call answers. Success or failure, the `finally` block
   * lowers the flag; a toast reports the outcome.
   */
  function OnCallSettled(g: Guard, outcome: CallOutcome): (step: Step)
    requires g.outstanding > 0
    ensures !step.next.processing
    ensures step.next.outstanding == g.outstanding - 1
    ensures outcome.CallSucceeded? ==> step.effects == [Notify(Toast("Success", SentMessage, Success))]
    ensures outcome.CallFailed? ==> step.effects == [Notify(Toast("Error", ErrorMessage(outcome.error), Error))]
    ensures Valid(g) ==> step.next == Idle
  {
    var toast := match outcome
      case CallSucceeded => SuccessToast(SentMessage)
      case CallFailed(e) => ErrorToast(ErrorMessage(e));
    Step(Guard(false, g.outstanding - 1), [Notify(toast)])
  }

  // ---------------------------------------------------------------------
  // Event traces
  // ---------------------------------------------------------------------

  datatype Event = Clicked(index: string) | CallSettled(outcome: CallOutcome)

  predicate Enabled(g: Guard, e: Event) {
    e.CallSettled? ==> g.outstanding > 0
  }

  function Apply(p: Panel, data: Option<RecordData>, g: Guard, e: Event): Step
    requires Enabled(g, e)
  {
    match e
    case Clicked(index) => OnClick(p, g, data, index)
    case CallSettled(outcome) => OnCallSettled(g, outcome)
  }

  predicate Feasible(p: Panel, data: Option<RecordData>, g: Guard, events: seq<Event>)
    decreases |events|
  {
    events == []
    || (Enabled(g, events[0]) && Feasible(p, data, Apply(p, data, g, events[0]).next, events[1..]))
  }

  function Run(p: Panel, data: Option<RecordData>, g: Guard, events: seq<Event>): Step
    requires Feasible(p, data, g, events)
    decreases |events|
  {
    if events == [] then Step(g, [])
    else
      var first := Apply(p, data, g, events[0]);
      var rest := Run(p, data, first.next, events[1..]);
      Step(rest.next, first.effects + rest.effects)
  }

  function CallCount(effects: seq<Effect>): nat {
    if effects == [] then 0
    else (if effects[0].Call? then 1 else 0) + CallCount(effects[1..])
  }

  function SettleCount(events: seq<Event>): nat {
    if events == [] then 0
    else (if events[0].CallSettled? then 1 else 0) + SettleCount(events[1..])
  }

  lemma {:induction false} CallCountAppend(a: seq<Effect>, b: seq<Effect>)
    ensures CallCount(a + b) == CallCount(a) + CallCount(b)
  {
    if a == [] {
      assert a + b == b;
    } else {
      assert (a + b)[0] == a[0];
      assert (a + b)[1..] == a[1..] + b;
      CallCountAppend(a[1..], b);
    }
  }

  /**
   * Whatever the clicks and answers, the guard stays valid and at most one
   * call is ever unanswered: the calls a trace sends exceed the answers it
   * receives by at most one.
   */
  lemma {:induction false} RunKeepsOneCallInFlight(p: Panel, data: Option<RecordData>, g: Guard, events: seq<Event>)
    requires Valid(g) && Feasible(p, data, g, events)
    ensures Valid(Run(p, data, g, events).next)
    ensures Run(p, data, g, events).next.outstanding <= 1
    ensures g.outstanding + CallCount(Run(p, data, g, events).effects)
            == SettleCount(events) + Run(p, data, g, events).next.outstanding
    decreases |events|
  {
    if events != [] {
      var first := Apply(p, data, g, events[0]);
      RunKeepsOneCallInFlight(p, data, first.next, events[1..]);
      CallCountAppend(first.effects, Run(p, data, first.next, events[1..]).effects);
    }
  }

  /** A click while a call is in flight sends nothing and changes nothing. */
  lemma ClickWhileProcessingIgnored(p: Panel, g: Guard, data: Option<RecordData>, index: string)
    requires g.processing
    ensures OnClick(p, g, data, index).next == g
    ensures CallCount(OnClick(p, g, data, index).effects) == 0
  {
  }

  /** Before the record loads, a click reports the missing id, sends nothing and stays idle. */
  lemma ClickBeforeLoadReportsMissingId(p: Panel, index: string)
    ensures OnClick(p, Idle, None, index) == Step(Idle, [Notify(Toast("Error", MissingIdMessage, Error))])
  {
  }

  /** A failed call whose error carries no message reports the default message and releases the guard. */
  lemma FailureWithoutMessage(p: Panel, data: RecordData, index: string)
    requires Truthy(GetWrapUpId(p, Some(data), index))
    ensures var sent := OnClick(p, Idle, Some(data), index).next;
            OnCallSettled(sent, CallFailed(RemoteError(None)))
              == Step(Idle, [Notify(Toast("Error", DefaultErrorMessage, Error))])
  {
  }
}

=== FILE: wrappers.dfy ===
/** Optional values: the model's stand-in for JavaScript's `null` / `undefined`. */
module Wrappers {

  datatype Option<+T> = None | Some(value: T) {

    /** The wrapped value, or `default` when there is none (JavaScript's `x ?? default`). */
    function GetOr(default: T): T {
      match this
      case Some(v) => v
      case None => default
    }
  }

  /** A string in a JavaScript truthiness test: `null`, `undefined` and `''` are falsy. */
  predicate Truthy(s: Option<string>) {
    s.Some? && s.value != ""
  }
}
